=== FILE: README.md ===
# SkillAPI player progression ledger, in Dafny

This project models the per-player progression record of SkillAPI,
`PlayerSkills`. The record holds the player's class, level, experience,
unspent skill points and mana. It also holds the skill map (skill key to
invested level) and the bindings (item type to skill name). The model covers
the operations that change that record:

- mana use and gain, with clamping into `[0, getMaxMana()]`;
- spending and refunding skill points (`upgradeSkill`, `downgradeSkill`);
- changing class (`setClass`), including refunds, unbinding and stopping passive skills;
- turning experience into levels (`giveExp`, `levelUp`);
- the profession check (`canProfess`);
- the decision list of a cast attempt (`castSkill`);
- the reconciliation of a saved skill map against the class tree at load time.

The model is functional. A `Ledger` is an immutable record. Every operation
returns a `Step`: the new ledger, the Java return value, and a trace. The
trace lists what the operation emitted, in order: calls into passive-skill
hooks, events posted to the host's event bus, and requests to refresh health
or the level bar. A Java exception becomes `Failure(...)` of a `Result`.

The skill and class registries are a `Catalog` of abstract total functions:

- per skill: cost, level requirement and mana cost by level; max level;
  prerequisite; kind (shot, target or passive);
- per class: flattened skill tree, max level, mana by level, profession
  level, parent;
- global settings: experience required per level, starting points, points
  per level, the professions-reset switch and the mana switch.

Answers from outside the ledger are inputs:

- the event bus's veto or substituted amount (`Reply`);
- stun and silence times;
- the skill's cooldown and mana status;
- whether a target was found;
- what the skill behaviour did;
- the permission check.

The iteration order of a Java `HashMap` is also an input: a sequence that
lists every key once. That order decides which binding `downgradeSkill`
removes first and the order of the stop hooks.

Names are matched case-insensitively, as in the source. `Lower` models
`toLowerCase` on ASCII letters. `EqualsIgnoreCase` compares lowered names.
Every write of a skill key lower-cases it, except the load at line 95 of
`PlayerSkills.java`, which keeps the key as the save spells it. Edits through the
live map that `getSkills()` returns are not checked either. Ledgers whose keys
are all lower-cased are `Normalised`, and the operations preserve this.

Modules: `Wrappers` (Option, Result), `Names`, `Catalogs`, `Ledgers` (the
record, queries, bindings, `canProfess`), `ManaPool`, `SkillPoints`,
`Classes`, `Experience`, `Casting`, `Loading`.

The model follows the code as written, including these places where its
behaviour may surprise a reader:

- The upgrade guards read the level requirement and cost at the current
  skill level.
- `setClass` puts every tree skill back at level 0.
- `giveExp` uses the threshold of the starting level for every level it grants.
- `levelUp` awards points for the clamped number of levels.
- `downgradeSkill` removes only the first binding to a skill that reaches 0.
- The incremental `setClass` stops a dropped passive skill even at level 0.
- A targeted cast posts its cast event before it checks for a target.
- A cast of a passive skill does nothing; it is not an error.

## Model

| member | source | states |
|---|---|---|
| `Ledgers.Fresh` | SkillAPI/src/com/sucy/skill/api/PlayerSkills.java:51-57 | A player seen for the first time has no class, level 1, exp 0 and the starting points, and holds and binds nothing. |
| `Ledgers.GetSkillLevel` | SkillAPI/src/com/sucy/skill/api/PlayerSkills.java:588-592 | When the lower-cased name is held, the call returns the level stored under it. Otherwise it throws `NotHeld(name)`. |
| `Ledgers.HasSkill` | SkillAPI/src/com/sucy/skill/api/PlayerSkills.java:565-567 | The skill map holds the lower-cased name. |
| `Ledgers.HasSkillIgnoresCase` | SkillAPI/src/com/sucy/skill/api/PlayerSkills.java:565-567 | Two names that are equal ignoring case are held or not held together. |
| `Ledgers.GetMaxMana` | SkillAPI/src/com/sucy/skill/api/PlayerSkills.java:183-186 | 0 without a registered class; otherwise the class's mana at the player's level. |
| `Ledgers.GetProfessionLevel` | SkillAPI/src/com/sucy/skill/api/PlayerSkills.java:551-556 | 1 without a registered class; otherwise the class's profession level. |
| `Ledgers.CanProfess` | SkillAPI/src/com/sucy/skill/api/PlayerSkills.java:729-736 | An unknown target is refused. Without a registered class, the answer is "the target has no parent". With a class, the answer requires all of: profession level ≥ 1, permission, target's parent equal to the current class ignoring case, and profession level ≤ player level. |
| `Ledgers.GetBound` | SkillAPI/src/com/sucy/skill/api/PlayerSkills.java:629-631 | The item has a bound skill exactly when it is a key of the bindings, and the result is the name stored under it. |
| `Ledgers.Bind` | SkillAPI/src/com/sucy/skill/api/PlayerSkills.java:618-620 | Binding returns the skill the item was bound to before. Afterwards the item is bound to the new skill. No other item and no other field changes. |
| `Ledgers.Unbind` | SkillAPI/src/com/sucy/skill/api/PlayerSkills.java:639-642 | The item is unbound afterwards. Every other binding and field is unchanged. |
| `Ledgers.BindUnbindRoundTrip` | SkillAPI/src/com/sucy/skill/api/PlayerSkills.java:618-642 | Binding a free item and then unbinding it restores the ledger. A second bind reports the first bind's skill. Unbinding twice is the same as unbinding once. |
| `ManaPool.UseMana` | SkillAPI/src/com/sucy/skill/api/PlayerSkills.java:214-224 | A vetoed use leaves the ledger unchanged. Otherwise mana ends ≤ getMaxMana(), and ≥ 0 when the maximum is non-negative. An amount that fits is subtracted exactly. An overdraw leaves exactly 0, or the maximum when that is negative. An overfill leaves exactly the maximum. Only mana changes. |
| `ManaPool.GainMana` | SkillAPI/src/com/sucy/skill/api/PlayerSkills.java:233-244 | With no class it does nothing and posts no event. A veto leaves the ledger unchanged. Otherwise the result is clamped into [0, getMaxMana()]. An amount that fits is added exactly, an overfill leaves exactly the maximum, and a result below 0 leaves exactly 0, or the maximum when that is negative. |
| `ManaPool.UseThenGainRestores` | SkillAPI/src/com/sucy/skill/api/PlayerSkills.java:214-244 | Using an amount that fits in the pool and gaining it back restores the ledger exactly. |
| `ManaPool.ManaStaysInRange` | SkillAPI/src/com/sucy/skill/api/PlayerSkills.java:183-244 | Mana that starts in [0, getMaxMana()] stays in range after any use or gain, whatever the bus answers. |
| `SkillPoints.UpgradeSkill` | SkillAPI/src/com/sucy/skill/api/PlayerSkills.java:254-297 | Refused (false, ledger and trace unchanged) unless, in order: the skill is held, it is below max level, the level requirement is met, the cost is met, and the prerequisite is held at its level. The call throws only when the first four pass and the prerequisite is not held at all. On success: the skill rises by exactly 1, points fall by exactly cost(level+1), and nothing else changes. The passive hook comes first and sees the points before the deduction. The trace is exactly: the passive hook (passive skills only), the unlock event (on a first point only), then the upgrade event. |
| `SkillPoints.UpgradeSkillIntended` | SkillAPI/src/com/sucy/skill/api/PlayerSkills.java:262-283 | With the guards read at level+1, a successful upgrade meets the requirement of the level bought and never takes non-negative points below 0. |
| `SkillPoints.UpgradeOverdraws` | SkillAPI/src/com/sucy/skill/api/PlayerSkills.java:267-283 | Take a skill costing its level, held at 0 by a player with 0 points. As written, the upgrade succeeds and leaves -1 points. The intended guards refuse it. |
| `SkillPoints.RemoveFirstBinding` | SkillAPI/src/com/sucy/skill/api/PlayerSkills.java:327-334 | With no binding to the name, nothing changes. Otherwise exactly one binding is removed: the first one in iteration order whose skill equals the name, ignoring case. |
| `SkillPoints.DowngradeSkill` | SkillAPI/src/com/sucy/skill/api/PlayerSkills.java:306-341 | Refused (false, nothing changed) iff the skill is absent or at level 0. On success: points rise by cost(level) and the level falls by 1. Bindings change only when the level reaches 0, and then only the first binding to the skill is removed. A passive skill is stopped at the old level and restarted at the new one. The downgrade event is posted last; for a non-passive skill it is the only event. |
| `SkillPoints.UpgradeDowngradeRoundTrip` | SkillAPI/src/com/sucy/skill/api/PlayerSkills.java:254-341 | A successful upgrade followed by a downgrade succeeds and restores points and skill levels exactly. The whole ledger is restored unless the upgrade bought the first point while an item was bound to the skill. |
| `SkillPoints.PointsKeepNormalised` | SkillAPI/src/com/sucy/skill/api/PlayerSkills.java:284-326 | Upgrades and downgrades write only lower-cased skill keys. |
| `Classes.StopPassivesOnce` | SkillAPI/src/com/sucy/skill/api/PlayerSkills.java:497-505 | `stopPassiveAbilities` calls the stop hook exactly once for each registered passive skill with level ≥ 1, at that level, and emits nothing else. |
| `Classes.StopPassives` | SkillAPI/src/com/sucy/skill/api/PlayerSkills.java:497-505 | Every hook emitted stops a registered passive skill that holds at least one point, at the level it holds. |
| `Classes.Reconcile` | SkillAPI/src/com/sucy/skill/api/PlayerSkills.java:394-417 | Skills the new class does not grant are removed. Points rise by the sum of cost(s, i) for i = 1..level(s) over the removed skills. Exactly the bindings naming a removed skill, ignoring case, are dropped. The trace holds exactly one stop hook per removed registered passive skill, at its level (even level 0), and nothing else. |
| `Classes.Leave` | SkillAPI/src/com/sucy/skill/api/PlayerSkills.java:369-385 | A change to no class resets level to 1, points to the starting points and exp to 0, and empties skills and bindings. Invested passives are stopped, then health and level bar refresh, then the class-change event is posted. |
| `Classes.Enter` | SkillAPI/src/com/sucy/skill/api/PlayerSkills.java:387-436 | The skills are exactly the new tree's skills, each at level 0. The exception is the intended fill without the reset setting, which keeps the level of a skill held before. Under the reset setting: level 1, starting points, exp 0, no bindings. Otherwise: level and exp kept, points raised by the full investment in the dropped skills, and exactly the bindings to dropped skills removed. Mana is filled to the class's mana iff the player had no registered class. Keys stay lower-cased. The trace is the stop hooks, then the refreshes, then the class-change event. |
| `Classes.SetClass` | SkillAPI/src/com/sucy/skill/api/PlayerSkills.java:349-437 | A null or unknown class, or the reset setting, gives level 1, starting points, exp 0 and no bindings. No class also empties skills and keeps mana. A registered class leaves exactly its tree's skills, all at 0. Incrementally, level and exp are kept and points rise by the removed skills' full investment. Exactly the bindings to removed skills go. The trace is the stop hooks (of invested passives on reset or no class, of dropped skills otherwise), then the health and level-bar refresh, then the class-change event. Keys stay lower-cased. |
| `Classes.FreshHasNoClassShape` | SkillAPI/src/com/sucy/skill/api/PlayerSkills.java:51-57 | A fresh player is already in the no-class shape: `setClass(null)` leaves the ledger unchanged. |
| `Classes.SetClassStopsPassivesOnce` | SkillAPI/src/com/sucy/skill/api/PlayerSkills.java:353-385 | With no class, or under the reset setting, each invested passive skill is stopped exactly once, at its level. |
| `Classes.SetClassIntended` | SkillAPI/src/com/sucy/skill/api/PlayerSkills.java:419-422 | When tree skills are added only if missing, an incremental class change keeps every shared skill's level. Points plus invested cost is then conserved. |
| `Classes.SharedSkillReset` | SkillAPI/src/com/sucy/skill/api/PlayerSkills.java:394-422 | In an incremental change, a held skill that the new tree also grants is not among the refunded ones. As written it ends at level 0; the intended fill keeps its level. |
| `Classes.SharedSkillInvestmentLost` | SkillAPI/src/com/sucy/skill/api/PlayerSkills.java:419-422 | A warrior with 2 points in a skill shared with the knight tree becomes a knight. As written, the skill returns to 0 with no refund, so the 2 points are lost. The intended fill keeps them. |
| `Experience.LevelUp` | SkillAPI/src/com/sucy/skill/api/PlayerSkills.java:681-720 | Throws without a registered class. Otherwise the amount is clamped so the level does not pass the class maximum. Nothing happens when the clamped amount is ≤ 0. Points rise by the levels gained × points per level. Only level and points change. |
| `Experience.GiveExp` | SkillAPI/src/com/sucy/skill/api/PlayerSkills.java:651-672 | No class: nothing happens. Vetoed: only the event is posted. Otherwise the final exp is below the threshold of the starting level, and equals total mod threshold. The player levels up by total div threshold through `levelUp`, so levels clamped at the maximum are lost. Below the threshold only exp changes. |
| `Casting.CastSkill` | SkillAPI/src/com/sucy/skill/api/PlayerSkills.java:919-1039 | An unknown skill throws `UnknownSkill(name)`, and a skill not held throws `NotHeld` with the registered name. Otherwise the checks run in order: stun (reported even with silence), silence, cooldown, missing mana (missing, current, cost). Once every check passes: a passive skill is ignored and emits nothing, and any other skill posts its cast event. Then a targeted skill without a target ends as no target, and a vetoed cast ends as cancelled. Otherwise the behaviour runs, and the result is cast, declined or failed as it fires, declines or throws. Each outcome is stated as an if-and-only-if. Cooldown starts iff the result is a cast, and mana changes only then, through `useMana`. Each outcome's trace is exact: empty when a check fails or the skill is passive; the cast event alone for no target or a veto; the cast event and the invocation for declined or failed; for a cast, those two, then the cooldown start, then the mana-use event when mana is enabled. The cast stack always ends empty. |
| `Casting.StunWins` | SkillAPI/src/com/sucy/skill/api/PlayerSkills.java:929-942 | A stunned player's cast is refused as stunned with the time left, whatever the cooldown, mana or skill. Nothing is charged or posted. |
| `Loading.Load` | SkillAPI/src/com/sucy/skill/api/PlayerSkills.java:68-125 | A saved unregistered class becomes no class, with the reset stats and no bindings read. With a registered class, stored skills the tree no longer grants are dropped without refund. Kept skills keep their stored level, missing tree skills are added at 0, and points are the stored points. The trace is the level-bar refresh alone, or, for an unregistered class, the refreshes and a class-change event from no class to no class. |
| `Loading.LoadMatchesTree` | SkillAPI/src/com/sucy/skill/api/PlayerSkills.java:92-104 | With a consistently keyed registry and lower-cased saved keys, the loaded skill map holds exactly the tree's skills, lower-cased, with the saved levels of registered tree skills kept. |

## Findings

| source | as written | input that shows it | evidently intended | confidence | as-written member | corrected member |
|---|---|---|---|---|---|---|
| SkillAPI/src/com/sucy/skill/api/PlayerSkills.java:267-283 | The level requirement and the cost are read at the current skill level. The deduction uses cost(level + 1). | A skill whose cost is its level, held at 0 by a player with 0 points: the upgrade succeeds and leaves -1 points. | Check the requirement and the cost of the level being bought, level + 1. | not executed; high | `SkillPoints.UpgradeSkill`, `SkillPoints.UpgradeOverdraws` | `SkillPoints.UpgradeSkillIntended` |
| SkillAPI/src/com/sucy/skill/api/PlayerSkills.java:419-422 | Every skill of the new tree is put at level 0, including skills kept from the old class. | A warrior with 2 points in "slash" becomes a knight whose tree also holds "slash": the skill drops to 0 and nothing is refunded. | Add only the tree skills not yet held, as the comment "Add any new skills" says. | not executed; medium | `Classes.SetClass`, `Classes.SharedSkillReset`, `Classes.SharedSkillInvestmentLost` | `Classes.SetClassIntended` |

## Left out

- Chat messages are not modelled: level-up, max-level, cooldown, missing-mana and skill messages, and status messages. They are host I/O; the cast result carries the values those messages show.
- Class prefix decoration (`PrefixManager`) and the permission TODOs are host calls without effect on the ledger.
- Health (`heal`, `updateHealth`, `applyMaxHealth`, `addMaxHealth`, `clearHealthBonuses`, the bonus health field) is left out. It is floating-point host state. A refresh appears only as `HealthUpdated` in the trace.
- `updateLevelBar` appears only as `LevelBarUpdated` in the trace. The bar itself is host display.
- The status store (`applyStatus`, `getStatusData`, `removeStatus`, `hasStatus`, `getTimeLeft`) is external. Stun and silence times are inputs.
- `startPassiveAbilities` is not modelled. It is called by the host on join or respawn and only calls passive hooks.
- Trivial getters, `getPrefix`, `hasSkillUnlocked` and `viewSkills` (inventory display) are not modelled.
- `save`, YAML parsing, `Material.getMaterial` and the dynamic values of `Valued` are left out. Only the reconciliation step of loading is modelled.
- `checkStatus`, `startCooldown`, `getCooldown`, `TargetHelper.getLivingTarget`, `Protection.isAlly` and the skills' `cast` bodies are inputs or trace entries. `SkillAPI.getClass`/`getSkill` and `CustomClass.hasSkill` are not part of this model. They are taken to be case-insensitive lookups in registries keyed by lower-cased name.
- Catalog attributes are integers. The `(int)` truncation of the source's double attributes is not modelled.
- Java's 32-bit `int` arithmetic is not modelled. Points, experience, levels and mana are unbounded, so overflow wrap-around is out of scope.
- Case folding covers ASCII letters only, not the full Unicode rules of `toLowerCase`.
- The static cast stack is a field of the ledger; the source's sharing of it across players is out of scope.
- `Classes.SetClass` requires that every dropped skill with points is registered (`RefundsResolvable`). Otherwise the source throws a null-pointer exception halfway through the change. It also requires lower-cased skill keys (`Normalised`). That excludes a ledger loaded from a save that spells a key in mixed case, since the load at line 95 keeps the saved spelling, and a ledger whose map was edited through `getSkills()`.
- `Classes.Reconcile` and `Classes.Enter` (the incremental branch, without the reset setting) require the same thing as `RefundsResolvable`: every dropped skill with points is registered (`DroppedRegistered`). Otherwise the refund at line 402 dereferences a missing registry entry and the source throws; the model does not model that exception.
- `SkillPoints.UpgradeDowngradeRoundTrip` assumes no skill is held at a negative level. Such a level can come only from a hand-edited save.
- `Experience.GiveExp` requires the experience threshold of the player's level to be positive when the class is registered, the gain is not vetoed and the new experience reaches the threshold. In that case, with a threshold of 0 or a negative one, the level-up loop of the source never ends. The model leaves that non-terminating case out. A vetoed gain, or one that stays below a non-positive threshold, is covered.

=== FILE: casting.dfy ===
/** `castSkill`: the ordered decision list of a cast attempt. The status
    store, the skill's own cooldown/mana check, target search, the event bus
    and the skill behaviour are outside the ledger; their answers are inputs. */
module Casting {
  import opened Wrappers
  import opened Names
  import opened Catalogs
  import opened Ledgers
  import opened ManaPool

  /** `ClassSkill.checkStatus`: ready, on cooldown, or short of mana. */
  datatype SkillStatus = Ready | CoolingDown | LacksMana

  /** What the skill's `cast` did: fired, declined (returned false), or threw. */
  datatype Behaviour = Fires | Declines | Throws

  /** The outside world at the moment of the attempt. */
  datatype Conditions = Conditions(
    status: SkillStatus,
    cooldownLeft: int,
    stunLeft: int,
    silenceLeft: int,
    targetFound: bool,
    castCancelled: bool,
    behaviour: Behaviour,
    manaReply: Reply)

  /** Why the attempt ended: the feedback the player is sent, or the cast. */
  datatype CastResult =
    | Stunned(left: int)
    | Silenced(left: int)
    | OnCooldown(left: int)
    | MissingMana(missing: int, mana: int, cost: int)
    | CastCancelled
    | NoTarget
    | Cast
    | Declined
    | Failed
    | Ignored

  /** A cast that succeeded: start the cooldown, then use the level's mana
      cost when mana is enabled. */
  function Charge(cat: Catalog, st: Ledger, sk: SkillDef, lvl: int, w: Conditions): Step<CastResult> {
    var t := [CooldownStarted(sk.name)];
    if cat.manaEnabled then
      var u := UseMana(cat, st, sk.manaCost(lvl), w.manaReply);
      Step(u.st, Cast, t + u.trace)
    else Step(st, Cast, t)
  }

  /** Run the skill's behaviour; only a behaviour that fires is charged. */
  function Invoke(cat: Catalog, st: Ledger, sk: SkillDef, lvl: int, w: Conditions): Step<CastResult> {
    var t := [Invoked(sk.name, lvl, st.casting)];
    match w.behaviour
    case Fires =>
      var c := Charge(cat, st, sk, lvl, w);
      Step(c.st, Cast, t + c.trace)
    case Declines => Step(st, Declined, t)
    case Throws => Step(st, Failed, t)
  }

  /** Neither stunned nor silenced, and the skill is off cooldown with mana to spare. */
  predicate GatesPass(w: Conditions) {
    w.stunLeft <= 0 && w.silenceLeft <= 0 && w.status == Ready
  }

  /** A ready, non-passive skill that has its target (when it needs one). */
  predicate Aimed(sk: SkillDef, w: Conditions) {
    GatesPass(w) && sk.kind != Passive && (sk.kind == Target ==> w.targetFound)
  }

  /** The decision list, with the skill already pushed on the cast stack. */
  function Decide(cat: Catalog, st: Ledger, sk: SkillDef, lvl: int, w: Conditions): (r: Step<CastResult>)
    ensures r.st.(mana := st.mana) == st
    ensures w.stunLeft > 0 ==> r.out == Stunned(w.stunLeft)
    ensures w.stunLeft <= 0 && w.silenceLeft > 0 ==> r.out == Silenced(w.silenceLeft)
    ensures w.stunLeft <= 0 && w.silenceLeft <= 0 && w.status == CoolingDown ==> r.out == OnCooldown(w.cooldownLeft)
    ensures w.stunLeft <= 0 && w.silenceLeft <= 0 && w.status == LacksMana ==>
              r.out == MissingMana(sk.manaCost(lvl) - st.mana, st.mana, sk.manaCost(lvl))
    ensures r.out == Ignored <==> GatesPass(w) && sk.kind == Passive
    ensures r.out == NoTarget <==> GatesPass(w) && sk.kind == Target && !w.targetFound
    ensures r.out == CastCancelled <==> Aimed(sk, w) && w.castCancelled
    ensures r.out == Cast <==> Aimed(sk, w) && !w.castCancelled && w.behaviour == Fires
    ensures r.out == Declined <==> Aimed(sk, w) && !w.castCancelled && w.behaviour == Declines
    ensures r.out == Failed <==> Aimed(sk, w) && !w.castCancelled && w.behaviour == Throws
    ensures !GatesPass(w) || sk.kind == Passive ==> r.trace == []
    ensures r.out == NoTarget || r.out == CastCancelled ==> r.trace == [CastRequested(sk.name)]
    ensures r.out == Declined || r.out == Failed ==>
              r.trace == [CastRequested(sk.name), Invoked(sk.name, lvl, st.casting)]
    ensures r.out == Cast ==>
              r.trace == [CastRequested(sk.name), Invoked(sk.name, lvl, st.casting), CooldownStarted(sk.name)]
                         + (if cat.manaEnabled then [ManaUseRequested(sk.manaCost(lvl))] else [])
    ensures r.out != Cast || !cat.manaEnabled ==> r.st.mana == st.mana
    ensures r.out == Cast && cat.manaEnabled ==>
              r.st.mana == UseMana(cat, st, sk.manaCost(lvl), w.manaReply).st.mana
  {
    if w.silenceLeft > 0 || w.stunLeft > 0 then
      Step(st, if w.stunLeft > 0 then Stunned(w.stunLeft) else Silenced(w.silenceLeft), [])
    else if w.status == CoolingDown then Step(st, OnCooldown(w.cooldownLeft), [])
    else if w.status == LacksMana then
      var cost := sk.manaCost(lvl);
      Step(st, MissingMana(cost - st.mana, st.mana, cost), [])
    else match sk.kind
      case Shot =>
        var t := [CastRequested(sk.name)];
        if w.castCancelled then Step(st, CastCancelled, t)
        else var i := Invoke(cat, st, sk, lvl, w); Step(i.st, i.out, t + i.trace)
      case Target =>
        var t := [CastRequested(sk.name)];
        if !w.targetFound then Step(st, NoTarget, t)
        else if w.castCancelled then Step(st, CastCancelled, t)
        else var i := Invoke(cat, st, sk, lvl, w); Step(i.st, i.out, t + i.trace)
      case Passive => Step(st, Ignored, [])
  }

  /** `castSkill(name)`: throws for an unregistered skill or one the player
      does not hold; otherwise pushes the skill on the cast stack, runs the
      decision list and clears the stack whatever the outcome. */
  function CastSkill(cat: Catalog, st: Ledger, name: string, w: Conditions): (r: Result<Step<CastResult>, Error>)
    ensures LookupSkill(cat, name).None? ==> r == Failure(UnknownSkill(name))
    ensures LookupSkill(cat, name).Some? ==>
              (r.Failure? <==> !HasSkill(st, LookupSkill(cat, name).value.name))
    ensures LookupSkill(cat, name).Some? && r.Failure? ==> r.error == NotHeld(LookupSkill(cat, name).value.name)
    ensures r.Success? ==>
              var sk := LookupSkill(cat, name).value;
              var lvl := st.skills[Lower(sk.name)];
              var n := r.value.st;
              var res := r.value.out;
              && n.casting == []
              && n.(mana := st.mana, casting := st.casting) == st
              && (w.stunLeft > 0 ==> res == Stunned(w.stunLeft))
              && (w.stunLeft <= 0 && w.silenceLeft > 0 ==> res == Silenced(w.silenceLeft))
              && (w.stunLeft <= 0 && w.silenceLeft <= 0 && w.status == CoolingDown ==> res == OnCooldown(w.cooldownLeft))
              && (w.stunLeft <= 0 && w.silenceLeft <= 0 && w.status == LacksMana ==>
                    res == MissingMana(sk.manaCost(lvl) - st.mana, st.mana, sk.manaCost(lvl)))
              && (CastRequested(sk.name) in r.value.trace <==> GatesPass(w) && sk.kind != Passive)
              && (res == Ignored <==> GatesPass(w) && sk.kind == Passive)
              && (res == NoTarget <==> GatesPass(w) && sk.kind == Target && !w.targetFound)
              && (res == CastCancelled <==> Aimed(sk, w) && w.castCancelled)
              && (Invoked(sk.name, lvl, st.casting + [sk.name]) in r.value.trace <==> Aimed(sk, w) && !w.castCancelled)
              && (res == Cast <==> Aimed(sk, w) && !w.castCancelled && w.behaviour == Fires)
              && (res == Declined <==> Aimed(sk, w) && !w.castCancelled && w.behaviour == Declines)
              && (res == Failed <==> Aimed(sk, w) && !w.castCancelled && w.behaviour == Throws)
              && (CooldownStarted(sk.name) in r.value.trace <==> res == Cast)
              && (res != Cast ==> n.mana == st.mana)
              && (res == Cast && cat.manaEnabled ==>
                    n.mana == UseMana(cat, st, sk.manaCost(lvl), w.manaReply).st.mana)
              && (res == Cast && !cat.manaEnabled ==> n.mana == st.mana)
              && (sk.kind == Passive ==> r.value.trace == [])
              && (!GatesPass(w) ==> r.value.trace == [])
              && (res == NoTarget || res == CastCancelled ==> r.value.trace == [CastRequested(sk.name)])
              && (res == Declined || res == Failed ==>
                    r.value.trace == [CastRequested(sk.name), Invoked(sk.name, lvl, st.casting + [sk.name])])
              && (res == Cast ==>
                    r.value.trace == [CastRequested(sk.name), Invoked(sk.name, lvl, st.casting + [sk.name]),
                                      CooldownStarted(sk.name)]
                                     + (if cat.manaEnabled then [ManaUseRequested(sk.manaCost(lvl))] else []))
  {
    match LookupSkill(cat, name)
    case None => Failure(UnknownSkill(name))
    case Some(sk) =>
      match GetSkillLevel(st, sk.name)
      case Failure(e) => Failure(e)
      case Success(lvl) =>
        var pushed := st.(casting := st.casting + [sk.name]);
        var d := Decide(cat, pushed, sk, lvl, w);
        Success(Step(d.st.(casting := []), d.out, d.trace))
  }

  /** A stunned player's cast is refused as stunned, with the stun's time
      left, whatever the cooldown, mana and skill; nothing is charged, no
      event is posted, and the cast stack ends empty. */
  lemma StunWins(cat: Catalog, st: Ledger, name: string, w: Conditions)
    requires w.stunLeft > 0
    requires LookupSkill(cat, name).Some? && HasSkill(st, LookupSkill(cat, name).value.name)
    ensures var r := CastSkill(cat, st, name, w);
            && r.Success?
            && r.value == Step(st.(casting := []), Stunned(w.stunLeft), [])
  {
  }
}

=== FILE: catalogs.dfy ===
/** The read-only skill and class registries and the global settings the
    ledger consults. Every formula is an abstract total function: the model
    never needs to know how a level's cost or mana is computed. */
module Catalogs {
  import opened Wrappers
  import opened Names

  /** What a skill is: a skill shot, a targeted skill, or a passive one. */
  datatype Kind = Shot | Target | Passive

  /** A registered skill. `cost`, `levelReq` and `manaCost` take a skill level. */
  datatype SkillDef = SkillDef(
    name: string,
    kind: Kind,
    maxLevel: int,
    cost: int -> int,
    levelReq: int -> int,
    manaCost: int -> int,
    prereq: Option<string>,
    prereqLevel: int)

  /** A registered class: its skill tree (already flattened over parents),
      level cap, mana by class level, profession level and parent class. */
  datatype ClassDef = ClassDef(
    name: string,
    skills: seq<string>,
    maxLevel: int,
    mana: int -> int,
    professLevel: int,
    parent: Option<string>)

  /** Registries keyed by lower-cased name, plus the plugin-wide settings. */
  datatype Catalog = Catalog(
    skills: map<string, SkillDef>,
    classes: map<string, ClassDef>,
    requiredExp: int -> int,
    startingPoints: int,
    pointsPerLevel: int,
    professionsReset: bool,
    manaEnabled: bool)

  /** `getSkill(name)`: case-insensitive, absent when unregistered. */
  function LookupSkill(cat: Catalog, name: string): Option<SkillDef> {
    if Lower(name) in cat.skills then Some(cat.skills[Lower(name)]) else None
  }

  /** `getClass(name)`: absent for a null or an unregistered name. */
  function GetClass(cat: Catalog, name: Option<string>): Option<ClassDef> {
    if name.Some? && Lower(name.value) in cat.classes then Some(cat.classes[Lower(name.value)]) else None
  }

  predicate IsPassive(cat: Catalog, key: string) {
    LookupSkill(cat, key).Some? && LookupSkill(cat, key).value.kind == Passive
  }

  /** `CustomClass.hasSkill`: the class tree lists the name, ignoring case. */
  predicate Grants(c: ClassDef, name: string) {
    exists s :: s in c.skills && EqualsIgnoreCase(s, name)
  }

  /** The lower-cased names of a class tree: the keys its skills are stored under. */
  function TreeKeys(c: ClassDef): set<string> {
    set s | s in c.skills :: Lower(s)
  }

  /** Every registry entry is keyed by its own lower-cased name. */
  predicate WellKeyed(cat: Catalog) {
    forall k :: k in cat.skills ==> Lower(cat.skills[k].name) == k
  }

  /** The points invested in a skill held at `level`: cost(1) + ... + cost(level). */
  function Refund(s: SkillDef, level: int): int
    decreases level
  {
    if level <= 0 then 0 else Refund(s, level - 1) + s.cost(level)
  }

  /** The refund for a stored skill key. An unregistered key yields 0. The
      source throws instead when such a key holds points, so callers rule out
      that case. */
  function KeyRefund(cat: Catalog, key: string, level: int): int {
    match LookupSkill(cat, key)
    case None => 0
    case Some(s) => Refund(s, level)
  }

  /** Every key of a tree is granted by that tree. */
  lemma TreeKeysGranted(c: ClassDef, k: string)
    requires k in TreeKeys(c)
    ensures Grants(c, k)
  {
    var s :| s in c.skills && Lower(s) == k;
    LowerIdempotent(s);
  }
}

=== FILE: classes.dfy ===
/** Changing class (`setClass`) and stopping passive skills
    (`stopPassiveAbilities`). Map iteration order is an input `order` that
    enumerates the skill keys; it fixes the order of the stop hooks. */
module Classes {
  import opened Wrappers
  import opened Names
  import opened Catalogs
  import opened Ledgers

  /** The skills holding at least one point. */
  function InvestedOnly(skills: map<string, int>): map<string, int> {
    map k | k in skills && skills[k] >= 1 :: skills[k]
  }

  /** A stop hook for every passive skill of `m`, visiting keys in `order`. */
  function StopAll(cat: Catalog, m: map<string, int>, order: seq<string>): seq<Event> {
    if order == [] then []
    else
      (if order[0] in m && IsPassive(cat, order[0]) then [StopEffects(order[0], m[order[0]])] else [])
      + StopAll(cat, m, order[1..])
  }

  /** `stopPassiveAbilities`: the hooks of the invested passive skills. */
  function StopPassives(cat: Catalog, skills: map<string, int>, order: seq<string>): (r: seq<Event>)
    ensures forall e :: e in r ==>
              && e.StopEffects? && e.skill in skills && skills[e.skill] >= 1
              && e.level == skills[e.skill] && IsPassive(cat, e.skill)
  {
    StopAllCountsAny(cat, InvestedOnly(skills), order);
    StopAll(cat, InvestedOnly(skills), order)
  }

  lemma HeadNotInTail<T>(s: seq<T>)
    requires |s| > 0 && NoDuplicates(s)
    ensures s[0] !in s[1..]
  {
    forall j | 0 <= j < |s[1..]| ensures s[1..][j] != s[0] {
      assert s[1..][j] == s[j + 1];
    }
  }

  /** Over an iteration order without repeats, `StopAll` calls the hook of
      each listed passive skill of `m` exactly once, at its level, and emits
      nothing else. */
  lemma {:induction false} StopAllCounts(cat: Catalog, m: map<string, int>, order: seq<string>)
    requires NoDuplicates(order)
    ensures forall k, l :: multiset(StopAll(cat, m, order))[StopEffects(k, l)] ==
              (if k in order && k in m && m[k] == l && IsPassive(cat, k) then 1 else 0)
    ensures forall e :: e in StopAll(cat, m, order) ==> e.StopEffects?
  {
    if order != [] {
      var tail := order[1..];
      assert NoDuplicates(tail) by {
        forall i, j | 0 <= i < j < |tail| ensures tail[i] != tail[j] {
          assert tail[i] == order[i + 1] && tail[j] == order[j + 1];
        }
      }
      StopAllCounts(cat, m, tail);
      HeadNotInTail(order);
      var k0 := order[0];
      var h := if k0 in m && IsPassive(cat, k0) then [StopEffects(k0, m[k0])] else [];
      assert StopAll(cat, m, order) == h + StopAll(cat, m, tail);
      forall k, l
        ensures multiset(StopAll(cat, m, order))[StopEffects(k, l)] ==
                (if k in order && k in m && m[k] == l && IsPassive(cat, k) then 1 else 0)
      {
        assert k in order <==> k == k0 || k in tail;
      }
    }
  }

  /** Under the iteration order of the skill map, `stopPassiveAbilities`
      stops each passive skill with level >= 1 exactly once, at its level. */
  lemma StopPassivesOnce(cat: Catalog, skills: map<string, int>, order: seq<string>)
    requires Enumerates(order, skills.Keys)
    ensures forall k, l :: multiset(StopPassives(cat, skills, order))[StopEffects(k, l)] ==
              (if k in skills && skills[k] >= 1 && skills[k] == l && IsPassive(cat, k) then 1 else 0)
    ensures forall e :: e in StopPassives(cat, skills, order) ==> e.StopEffects?
  {
    StopAllCounts(cat, InvestedOnly(skills), order);
  }

  /** The skills a class grants and those it does not. */
  function Kept(c: ClassDef, skills: map<string, int>): map<string, int> {
    map k | k in skills && Grants(c, k) :: skills[k]
  }

  function Dropped(c: ClassDef, skills: map<string, int>): map<string, int> {
    map k | k in skills && !Grants(c, k) :: skills[k]
  }

  /** Drop every binding whose skill name equals a dropped key, ignoring case. */
  function Unbound(binds: map<Material, string>, dropped: set<string>): map<Material, string> {
    map m | m in binds && !(exists k :: k in dropped && EqualsIgnoreCase(binds[m], k)) :: binds[m]
  }

  /** The points invested in the skills of `m`, summed over `order`. */
  function TotalRefund(cat: Catalog, m: map<string, int>, order: seq<string>): int {
    if order == [] then 0
    else (if order[0] in m then KeyRefund(cat, order[0], m[order[0]]) else 0) + TotalRefund(cat, m, order[1..])
  }

  /** The investment splits between the skills a class keeps and those it drops. */
  lemma {:induction false} TotalRefundSplits(cat: Catalog, c: ClassDef, m: map<string, int>, order: seq<string>)
    ensures TotalRefund(cat, m, order) == TotalRefund(cat, Kept(c, m), order) + TotalRefund(cat, Dropped(c, m), order)
  {
    if order != [] {
      TotalRefundSplits(cat, c, m, order[1..]);
    }
  }

  /** Two maps that agree on every listed key have the same investment. */
  lemma {:induction false} TotalRefundFrame(cat: Catalog, m1: map<string, int>, m2: map<string, int>, order: seq<string>)
    requires forall k :: k in order ==> (k in m1 <==> k in m2)
    requires forall k :: k in order && k in m1 ==> m1[k] == m2[k]
    ensures TotalRefund(cat, m1, order) == TotalRefund(cat, m2, order)
  {
    if order != [] {
      TotalRefundFrame(cat, m1, m2, order[1..]);
    }
  }

  /** The reset of a profession change under the reset setting, and of a
      change to no class. */
  function Reset(cat: Catalog, st: Ledger): Ledger {
    st.(level := 1, points := cat.startingPoints, exp := 0, skills := map[], binds := map[])
  }

  /** Every held skill with points that class `c` does not grant is registered:
      the refund at line 402 of the source reads the registry entry of each
      such skill and throws on a missing one. */
  predicate DroppedRegistered(cat: Catalog, c: ClassDef, skills: map<string, int>) {
    forall k :: k in skills && skills[k] >= 1 && !Grants(c, k) ==> LookupSkill(cat, k).Some?
  }

  /** The incremental branch: refund every skill the new class does not grant
      (all its levels), stop it if passive, unbind it everywhere, remove it. */
  function Reconcile(cat: Catalog, c: ClassDef, st: Ledger, order: seq<string>): (r: Step<()>)
    requires Enumerates(order, st.skills.Keys)
    requires Normalised(st)
    requires DroppedRegistered(cat, c, st.skills)
    ensures r.st.skills == Kept(c, st.skills) && r.st.skills.Keys <= TreeKeys(c)
    ensures r.st.points == st.points + TotalRefund(cat, Dropped(c, st.skills), order)
    ensures forall m :: m in r.st.binds <==>
              m in st.binds && !(Lower(st.binds[m]) in st.skills && !Grants(c, st.binds[m]))
    ensures forall m :: m in r.st.binds ==> r.st.binds[m] == st.binds[m]
    ensures r.st.(points := st.points, skills := st.skills, binds := st.binds) == st
    ensures forall e :: e in r.trace ==> e.StopEffects?
    ensures forall k, l :: multiset(r.trace)[StopEffects(k, l)] ==
              (if k in st.skills && !Grants(c, k) && st.skills[k] == l && IsPassive(cat, k) then 1 else 0)
  {
    var dropped := Dropped(c, st.skills);
    StopAllCounts(cat, dropped, order);
    KeptInTree(c, st.skills);
    UnboundExact(c, st);
    StopAllCountsAny(cat, dropped, order);
    Step(st.(points := st.points + TotalRefund(cat, dropped, order),
             skills := Kept(c, st.skills),
             binds := Unbound(st.binds, dropped.Keys)),
         (), StopAll(cat, dropped, order))
  }

  /** Every tree skill put at level 0, as the source's unconditional `put` does. */
  function ZeroTree(m: map<string, int>, c: ClassDef): map<string, int> {
    map k | k in m.Keys + TreeKeys(c) :: if k in TreeKeys(c) then 0 else m[k]
  }

  /** Tree skills added at level 0 only when not already held. */
  function AddMissing(m: map<string, int>, c: ClassDef): map<string, int> {
    map k | k in m.Keys + TreeKeys(c) :: if k in m then m[k] else 0
  }

  /** `DroppedRegistered` for the incremental branch of a change to `className`,
      the only branch that refunds. */
  predicate RefundsResolvable(cat: Catalog, st: Ledger, className: Option<string>) {
    !cat.professionsReset && GetClass(cat, className).Some? ==>
      DroppedRegistered(cat, GetClass(cat, className).value, st.skills)
  }

  /** A binding survives the incremental branch iff it does not name a held
      skill the new class fails to grant. */
  lemma UnboundExact(c: ClassDef, st: Ledger)
    requires Normalised(st)
    ensures var u := Unbound(st.binds, Dropped(c, st.skills).Keys);
            && (forall m :: m in u <==> m in st.binds && !(Lower(st.binds[m]) in st.skills && !Grants(c, st.binds[m])))
            && (forall m :: m in u ==> u[m] == st.binds[m])
  {
    var dropped := Dropped(c, st.skills).Keys;
    forall m | m in st.binds
      ensures (exists k :: k in dropped && EqualsIgnoreCase(st.binds[m], k)) <==>
              (Lower(st.binds[m]) in st.skills && !Grants(c, st.binds[m]))
    {
      var v := st.binds[m];
      LowerIdempotent(v);
      if Lower(v) in st.skills && !Grants(c, v) {
        assert !Grants(c, Lower(v));
        assert Lower(v) in dropped && EqualsIgnoreCase(v, Lower(v));
      }
      if exists k :: k in dropped && EqualsIgnoreCase(v, k) {
        var k :| k in dropped && EqualsIgnoreCase(v, k);
        assert Lower(k) == k;
        assert Lower(v) == k;
        assert !Grants(c, k);
      }
    }
  }

  /** Under normalised keys the kept skills are all tree keys. */
  lemma KeptInTree(c: ClassDef, skills: map<string, int>)
    requires forall k :: k in skills ==> Lower(k) == k
    ensures Kept(c, skills).Keys <= TreeKeys(c)
  {
    forall k | k in Kept(c, skills) ensures k in TreeKeys(c) {
      var s :| s in c.skills && EqualsIgnoreCase(s, k);
    }
  }

  /** The change to no class: a null or unregistered name. Under the reset
      setting the stats are reset and passives stopped first; then, in every
      case, the stats are reset and the passives still held are stopped. */
  function Leave(cat: Catalog, st: Ledger, className: Option<string>, order: seq<string>): (r: Step<()>)
    requires GetClass(cat, className).None?
    ensures r.st == Reset(cat, st).(tree := className)
    ensures r.trace == StopPassives(cat, st.skills, order)
              + [HealthUpdated, LevelBarUpdated, ClassChanged(ClassName(cat, st.tree), None)]
  {
    var s1 := if cat.professionsReset then Reset(cat, st.(tree := className)) else st.(tree := className);
    var t1 := if cat.professionsReset then StopPassives(cat, st.skills, order) else [];
    StopAllNone(cat, order);
    Step(Reset(cat, s1), (), t1 + StopPassives(cat, s1.skills, order)
                           + [HealthUpdated, LevelBarUpdated, ClassChanged(ClassName(cat, st.tree), None)])
  }

  /** Nothing is stopped when no skill is held. */
  lemma {:induction false} StopAllNone(cat: Catalog, order: seq<string>)
    ensures StopPassives(cat, map[], order) == []
  {
    assert InvestedOnly(map[]) == map[];
    if order != [] {
      StopAllNone(cat, order[1..]);
    }
  }

  /** Whatever the order, `StopAll` emits only stop hooks of skills of `m`. */
  lemma {:induction false} StopAllCountsAny(cat: Catalog, m: map<string, int>, order: seq<string>)
    ensures forall e :: e in StopAll(cat, m, order) ==>
              e.StopEffects? && e.skill in m && e.level == m[e.skill] && IsPassive(cat, e.skill)
  {
    if order != [] {
      StopAllCountsAny(cat, m, order[1..]);
    }
  }

  /** Tree keys are lower-cased. */
  lemma TreeKeysLowered(c: ClassDef)
    ensures forall k :: k in TreeKeys(c) ==> Lower(k) == k
  {
    forall k | k in TreeKeys(c) ensures Lower(k) == k {
      var s :| s in c.skills && Lower(s) == k;
      LowerIdempotent(s);
    }
  }

  /** The change to a registered class: the reset (reset setting on) or the
      reconciliation of the skills the class does not grant, then the tree
      filled at level 0 (every tree skill as written, only the missing ones
      when `keepShared`), then mana filled when the player had no class. */
  function Enter(cat: Catalog, st: Ledger, className: Option<string>, order: seq<string>, keepShared: bool): (r: Step<()>)
    requires GetClass(cat, className).Some?
    requires Enumerates(order, st.skills.Keys)
    requires Normalised(st)
    requires RefundsResolvable(cat, st, className)
    ensures r.st.tree == className && r.st.casting == st.casting
    ensures r.st.skills.Keys == TreeKeys(GetClass(cat, className).value)
    ensures Normalised(r.st)
    ensures forall k :: k in r.st.skills ==>
              r.st.skills[k] == (if keepShared && !cat.professionsReset && k in st.skills then st.skills[k] else 0)
    ensures cat.professionsReset ==>
              r.st.level == 1 && r.st.points == cat.startingPoints && r.st.exp == 0 && r.st.binds == map[]
    ensures !cat.professionsReset ==>
              var c := GetClass(cat, className).value;
              && r.st.level == st.level && r.st.exp == st.exp
              && r.st.points == st.points + TotalRefund(cat, Dropped(c, st.skills), order)
              && (forall m :: m in r.st.binds <==>
                    m in st.binds && !(Lower(st.binds[m]) in st.skills && !Grants(c, st.binds[m])))
              && (forall m :: m in r.st.binds ==> r.st.binds[m] == st.binds[m])
    ensures r.st.mana == (if GetClass(cat, st.tree).None? then GetClass(cat, className).value.mana(r.st.level) else st.mana)
    ensures r.trace == (if cat.professionsReset then StopPassives(cat, st.skills, order)
                        else Reconcile(cat, GetClass(cat, className).value, st, order).trace)
              + [HealthUpdated, LevelBarUpdated, ClassChanged(ClassName(cat, st.tree), ClassName(cat, className))]
  {
    var c := GetClass(cat, className).value;
    TreeKeysLowered(c);
    forall k | k in TreeKeys(c) ensures Grants(c, k) {
      TreeKeysGranted(c, k);
    }
    var rec := if cat.professionsReset then Step(Reset(cat, st), (), StopPassives(cat, st.skills, order))
               else Reconcile(cat, c, st, order);
    var s3 := rec.st.(tree := className,
                      skills := if keepShared then AddMissing(rec.st.skills, c) else ZeroTree(rec.st.skills, c));
    var s4 := if GetClass(cat, st.tree).None? then s3.(mana := GetMaxMana(cat, s3)) else s3;
    Step(s4, (), rec.trace + [HealthUpdated, LevelBarUpdated, ClassChanged(ClassName(cat, st.tree), Some(c.name))])
  }

  /** `setClass(className)` as written. A null or unregistered name resets the
      player to no class; otherwise, unless the reset setting is on, skills
      the new class does not grant are refunded, stopped, unbound and removed;
      then every tree skill is put at level 0, and mana is filled when the
      player had no class before. */
  function SetClass(cat: Catalog, st: Ledger, className: Option<string>, order: seq<string>): (r: Step<()>)
    requires Enumerates(order, st.skills.Keys)
    requires Normalised(st)
    requires RefundsResolvable(cat, st, className)
    ensures r.st.tree == className && r.st.casting == st.casting
    ensures r.trace == (if GetClass(cat, className).None? || cat.professionsReset then StopPassives(cat, st.skills, order)
                        else Reconcile(cat, GetClass(cat, className).value, st, order).trace)
              + [HealthUpdated, LevelBarUpdated, ClassChanged(ClassName(cat, st.tree), ClassName(cat, className))]
    ensures GetClass(cat, className).None? || cat.professionsReset ==>
              r.st.level == 1 && r.st.points == cat.startingPoints && r.st.exp == 0 && r.st.binds == map[]
    ensures GetClass(cat, className).None? ==> r.st.skills == map[] && r.st.mana == st.mana
    ensures GetClass(cat, className).Some? ==>
              var c := GetClass(cat, className).value;
              && r.st.skills.Keys == TreeKeys(c)
              && (forall k :: k in r.st.skills ==> r.st.skills[k] == 0)
              && r.st.mana == (if GetClass(cat, st.tree).None? then c.mana(r.st.level) else st.mana)
    ensures !cat.professionsReset && GetClass(cat, className).Some? ==>
              var c := GetClass(cat, className).value;
              && r.st.level == st.level && r.st.exp == st.exp
              && r.st.points == st.points + TotalRefund(cat, Dropped(c, st.skills), order)
              && (forall m :: m in r.st.binds <==>
                    m in st.binds && !(Lower(st.binds[m]) in st.skills && !Grants(c, st.binds[m])))
              && (forall m :: m in r.st.binds ==> r.st.binds[m] == st.binds[m])
    ensures Normalised(r.st)
  {
    if GetClass(cat, className).None? then Leave(cat, st, className, order)
    else
      Enter(cat, st, className, order, false)
  }

  /** A player seen for the first time is already in the no-class shape:
      `setClass(null)` leaves the ledger as it is. */
  lemma FreshHasNoClassShape(cat: Catalog)
    ensures SetClass(cat, Fresh(cat), None, []).st == Fresh(cat)
  {
  }

  /** `setClass(null)`, or any `setClass` under the reset setting, stops each
      invested passive skill exactly once and calls no other hook. */
  lemma SetClassStopsPassivesOnce(cat: Catalog, st: Ledger, className: Option<string>, order: seq<string>)
    requires Enumerates(order, st.skills.Keys)
    requires Normalised(st)
    requires RefundsResolvable(cat, st, className)
    requires GetClass(cat, className).None? || cat.professionsReset
    ensures var t := SetClass(cat, st, className, order).trace;
            forall k, l :: multiset(t)[StopEffects(k, l)] ==
              (if k in st.skills && st.skills[k] >= 1 && st.skills[k] == l && IsPassive(cat, k) then 1 else 0)
  {
    StopPassivesOnce(cat, st.skills, order);
    var stops := StopPassives(cat, st.skills, order);
    var tail := [HealthUpdated, LevelBarUpdated, ClassChanged(ClassName(cat, st.tree), ClassName(cat, className))];
    assert multiset(stops + tail) == multiset(stops) + multiset(tail);
    forall k, l ensures multiset(tail)[StopEffects(k, l)] == 0 {
      assert StopEffects(k, l) !in tail;
    }
  }

  /** `setClass` with the evidently intended fill step: tree skills are added
      at level 0 only when not already held, so a skill shared by the old and
      new class keeps its points. */
  function SetClassIntended(cat: Catalog, st: Ledger, className: Option<string>, order: seq<string>): (r: Step<()>)
    requires Enumerates(order, st.skills.Keys)
    requires Normalised(st)
    requires RefundsResolvable(cat, st, className)
    ensures !cat.professionsReset && GetClass(cat, className).Some? ==>
              var c := GetClass(cat, className).value;
              && r.st.skills.Keys == TreeKeys(c)
              && (forall k :: k in st.skills && Grants(c, k) ==> r.st.skills[k] == st.skills[k])
              && r.st.points + TotalRefund(cat, r.st.skills, order) == st.points + TotalRefund(cat, st.skills, order)
  {
    if GetClass(cat, className).None? then Leave(cat, st, className, order)
    else
      var r := Enter(cat, st, className, order, true);
      ConservedByIntended(cat, GetClass(cat, className).value, st, order);
      r
  }

  /** Refunding the dropped skills and keeping the rest conserves the
      player's points plus investment. */
  lemma ConservedByIntended(cat: Catalog, c: ClassDef, st: Ledger, order: seq<string>)
    requires Enumerates(order, st.skills.Keys)
    requires Normalised(st)
    ensures TotalRefund(cat, AddMissing(Kept(c, st.skills), c), order)
            + TotalRefund(cat, Dropped(c, st.skills), order) == TotalRefund(cat, st.skills, order)
  {
    TotalRefundSplits(cat, c, st.skills, order);
    var kept := Kept(c, st.skills);
    var filled := AddMissing(kept, c);
    forall k | k in order
      ensures k in kept <==> k in filled
    {
      if k in filled && k !in kept {
        assert k in TreeKeys(c);
        TreeKeysGranted(c, k);
      }
    }
    TotalRefundFrame(cat, kept, filled, order);
  }

  /** The registry and ledger of the counterexample: a knight is a child of
      warrior, both trees hold "slash", and the warrior has two points in it. */
  function SharedCatalog(): Catalog {
    var slash := SkillDef("slash", Shot, 5, l => 1, l => 0, l => 0, None, 0);
    Catalog(map["slash" := slash],
            map["warrior" := ClassDef("warrior", ["slash"], 10, l => 0, 0, None),
                "knight" := ClassDef("knight", ["slash"], 10, l => 0, 0, Some("warrior"))],
            l => 100, 0, 1, false, true)
  }

  function SharedWarrior(): Ledger {
    Ledger(Some("warrior"), 5, 0, 0, 0, map["slash" := 2], map[], [])
  }

  /** As written, an incremental change to a class whose tree also holds an
      invested skill puts that skill back to 0, although the skill is not
      among the dropped ones whose points are refunded; the intended fill
      keeps its level. */
  lemma SharedSkillReset(cat: Catalog, st: Ledger, className: Option<string>, order: seq<string>, k: string)
    requires Enumerates(order, st.skills.Keys)
    requires Normalised(st)
    requires RefundsResolvable(cat, st, className)
    requires !cat.professionsReset && GetClass(cat, className).Some?
    requires k in st.skills && Grants(GetClass(cat, className).value, k)
    ensures k !in Dropped(GetClass(cat, className).value, st.skills)
    ensures k in SetClass(cat, st, className, order).st.skills
    ensures SetClass(cat, st, className, order).st.skills[k] == 0
    ensures k in SetClassIntended(cat, st, className, order).st.skills
    ensures SetClassIntended(cat, st, className, order).st.skills[k] == st.skills[k]
  {
    var c := GetClass(cat, className).value;
    var s :| s in c.skills && EqualsIgnoreCase(s, k);
    assert Lower(s) == k;
    assert k in TreeKeys(c);
  }

  /** The facts of the counterexample's registry and ledger. */
  lemma SharedSetup()
    ensures var cat := SharedCatalog();
            var st := SharedWarrior();
            && Enumerates(["slash"], st.skills.Keys)
            && Normalised(st)
            && RefundsResolvable(cat, st, Some("knight"))
            && !cat.professionsReset
            && GetClass(cat, Some("knight")).Some?
            && "slash" in st.skills
            && Grants(GetClass(cat, Some("knight")).value, "slash")
            && Dropped(GetClass(cat, Some("knight")).value, st.skills) == map[]
            && st.points + TotalRefund(cat, st.skills, ["slash"]) == 2
            && TotalRefund(cat, map[], ["slash"]) == 0
  {
    var cat := SharedCatalog();
    var st := SharedWarrior();
    assert Lower("slash") == "slash";
    assert Lower("knight") == "knight";
    var knight := cat.classes["knight"];
    assert GetClass(cat, Some("knight")).value == knight;
    assert Grants(knight, "slash") by { assert EqualsIgnoreCase(knight.skills[0], "slash"); }
    assert ["slash"][1..] == [];
    assert LookupSkill(cat, "slash").Some?;
    assert KeyRefund(cat, "slash", 2) == 2;
  }

  /** A warrior with two points in "slash" becomes a knight, whose tree also
      holds "slash". As written, the skill is put back to 0 and nothing is
      refunded, so the two invested points vanish; the intended fill keeps
      them and points plus investment stay at 2. */
  lemma SharedSkillInvestmentLost(cat: Catalog, st: Ledger)
    requires cat == SharedCatalog() && st == SharedWarrior()
    ensures && Enumerates(["slash"], st.skills.Keys)
            && Normalised(st)
            && RefundsResolvable(cat, st, Some("knight"))
            && st.points + TotalRefund(cat, st.skills, ["slash"]) == 2
            && SetClass(cat, st, Some("knight"), ["slash"]).st.points == 0
            && "slash" in SetClass(cat, st, Some("knight"), ["slash"]).st.skills
            && SetClass(cat, st, Some("knight"), ["slash"]).st.skills["slash"] == 0
            && "slash" in SetClassIntended(cat, st, Some("knight"), ["slash"]).st.skills
            && SetClassIntended(cat, st, Some("knight"), ["slash"]).st.skills["slash"] == 2
  {
    SharedSetup();
    SharedSkillReset(cat, st, Some("knight"), ["slash"], "slash");
  }
}

=== FILE: experience.dfy ===
/** Experience and levels: `giveExp` turns experience into levels at the
    threshold of the player's current level, and `levelUp` clamps at the
    class's maximum level and awards points per level gained. */
module Experience {
  import opened Wrappers
  import opened Catalogs
  import opened Ledgers

  /** `levelUp(amount)`: throws without a registered class; otherwise clamps
      the amount so the level does not pass the class's maximum, and does
      nothing when the clamped amount is not positive. */
  function LevelUp(cat: Catalog, st: Ledger, amount: int): (r: Result<Step<()>, Error>)
    ensures r.Failure? <==> GetClass(cat, st.tree).None?
    ensures r.Failure? ==> r.error == NoClass
    ensures r.Success? ==>
              var c := GetClass(cat, st.tree).value;
              var n := r.value.st;
              && n.(level := st.level, points := st.points) == st
              && st.level <= n.level
              && (n.level == st.level || n.level <= c.maxLevel)
              && (amount <= 0 || st.level >= c.maxLevel ==> n == st && r.value.trace == [])
              && (0 < amount && st.level + amount <= c.maxLevel ==> n.level == st.level + amount)
              && (0 < amount && st.level < c.maxLevel < st.level + amount ==> n.level == c.maxLevel)
              && n.points - st.points == (n.level - st.level) * cat.pointsPerLevel
              && (n.level > st.level ==>
                    r.value.trace == [HealthUpdated, LevelledUp(n.level - st.level), LevelBarUpdated])
  {
    match GetClass(cat, st.tree)
    case None => Failure(NoClass)
    case Some(c) =>
      var clamped := if amount + st.level > c.maxLevel then c.maxLevel - st.level else amount;
      if clamped <= 0 then Success(Step(st, (), []))
      else
        Success(Step(st.(level := st.level + clamped, points := st.points + clamped * cat.pointsPerLevel),
                     (), [HealthUpdated, LevelledUp(clamped), LevelBarUpdated]))
  }

  /** A non-zero multiple of a positive number is at least that number in size. */
  lemma {:induction false} MulAtLeast(k: nat, d: int)
    requires d > 0
    ensures k >= 1 ==> k * d >= d
  {
    if k > 1 {
      MulAtLeast(k - 1, d);
      assert k * d == (k - 1) * d + d;
    }
  }

  lemma MulSign(k: int, d: int)
    requires d > 0
    ensures k >= 1 ==> k * d >= d
    ensures k <= -1 ==> k * d <= -d
  {
    if k >= 1 {
      MulAtLeast(k, d);
    } else if k <= -1 {
      MulAtLeast(-k, d);
      assert k * d == -((-k) * d);
    }
  }

  /** Quotient and remainder are determined by `total == q * d + e` with `0 <= e < d`. */
  lemma DivModUnique(total: int, d: int, q: int, e: int)
    requires d > 0 && 0 <= e < d && total == q * d + e
    ensures q == total / d && e == total % d
  {
    var q' := total / d;
    var e' := total % d;
    assert total == q' * d + e';
    assert (q - q') * d == e' - e;
    MulSign(q - q', d);
  }

  /** `giveExp(amount)`: nothing without a registered class; otherwise posts
      the experience event and, unless it is cancelled, adds the amount the
      bus returned, then subtracts the threshold of the player's level at the
      call (it does not change inside the loop) while the experience reaches
      it, and levels up by the number of subtractions. */
  method GiveExp(cat: Catalog, st: Ledger, amount: int, reply: Reply) returns (next: Ledger, trace: seq<Event>)
    requires GetClass(cat, st.tree).Some? && reply.Proceed? && st.exp + reply.amount >= cat.requiredExp(st.level) ==>
               cat.requiredExp(st.level) > 0
    ensures GetClass(cat, st.tree).None? ==> next == st && trace == []
    ensures GetClass(cat, st.tree).Some? && reply.Cancelled? ==> next == st && trace == [ExpGainRequested(amount)]
    ensures GetClass(cat, st.tree).Some? && reply.Proceed? ==>
              var req := cat.requiredExp(st.level);
              var total := st.exp + reply.amount;
              && |trace| >= 1 && trace[0] == ExpGainRequested(amount)
              && next.exp < req
              && (total >= 0 ==> next.exp == total % req)
              && (total < req ==> next == st.(exp := total) && trace == [ExpGainRequested(amount), LevelBarUpdated])
              && (total >= req ==>
                    LevelUp(cat, st.(exp := total % req), total / req) == Success(Step(next, (), trace[1..])))
  {
    if GetClass(cat, st.tree).None? {
      return st, [];
    }
    trace := [ExpGainRequested(amount)];
    if reply.Cancelled? {
      return st, trace;
    }
    var req := cat.requiredExp(st.level);
    var total := st.exp + reply.amount;
    var e := total;
    var levels := 0;
    while e >= req
      invariant levels * req + e == total
      invariant levels >= 0
      invariant total >= 0 ==> e >= 0
      invariant levels > 0 ==> total >= req
      invariant req > 0 || (e == total && levels == 0)
      decreases e
    {
      e := e - req;
      levels := levels + 1;
    }
    var mid := st.(exp := e);
    if levels > 0 {
      DivModUnique(total, req, levels, e);
      var r := LevelUp(cat, mid, levels);
      next := r.value.st;
      trace := trace + r.value.trace;
    } else {
      next := mid;
      trace := trace + [LevelBarUpdated];
    }
    if total >= 0 && req > 0 {
      DivModUnique(total, req, levels, e);
    }
  }
}

=== FILE: ledgers.dfy ===
/** The per-player progression record (`PlayerSkills`) and its read-only
    queries, bindings and shared vocabulary (events, replies, errors). */
module Ledgers {
  import opened Wrappers
  import opened Names
  import opened Catalogs

  /** Ordinal of the host item type a skill can be bound to. */
  type Material = nat

  /** The player's class, level, experience, unspent points and mana, the
      skill key -> invested level map, the item -> skill name bindings, and
      the stack of skills being cast (a static field in the source). */
  datatype Ledger = Ledger(
    tree: Option<string>,
    level: int,
    exp: int,
    points: int,
    mana: int,
    skills: map<string, int>,
    binds: map<Material, string>,
    casting: seq<string>)

  /** What an operation emits, in order: hook calls into skills (carrying
      the key of the skill), events posted to the host's event bus, and host
      refresh requests. */
  datatype Event =
    | ManaUseRequested(amount: int)
    | ManaGainRequested(amount: int)
    | ExpGainRequested(amount: int)
    | OnUpgrade(skill: string, level: int, pointsSeen: int)
    | StopEffects(skill: string, level: int)
    | OnInitialize(skill: string, level: int)
    | SkillUnlocked(skill: string)
    | SkillUpgraded(skill: string)
    | SkillDowngraded(skill: string)
    | LevelledUp(amount: int)
    | ClassChanged(previous: Option<string>, next: Option<string>)
    | HealthUpdated
    | LevelBarUpdated
    | CastRequested(skill: string)
    | Invoked(skill: string, level: int, beingCast: seq<string>)
    | CooldownStarted(skill: string)

  /** The answer of the event bus to a cancellable event carrying an amount:
      cancelled, or go ahead with the (possibly substituted) amount. */
  datatype Reply = Cancelled | Proceed(amount: int)

  /** The new ledger, the operation's return value and the emitted trace. */
  datatype Step<T> = Step(st: Ledger, out: T, trace: seq<Event>)

  /** Exceptions the source throws out of an operation. */
  datatype Error =
    | UnknownSkill(name: string)   // castSkill: "Invalid skill"
    | NotHeld(name: string)        // getSkillLevel: "Player does not have skill"
    | NoClass                      // levelUp while not having a class

  /** The ledger of a player seen for the first time: no class, level 1,
      no experience, the starting points, and nothing held or bound. */
  function Fresh(cat: Catalog): (r: Ledger)
    ensures !HasClass(r) && r.level == 1 && r.exp == 0 && r.points == cat.startingPoints
    ensures r.skills == map[] && r.binds == map[] && r.casting == []
  {
    Ledger(None, 1, 0, cat.startingPoints, 0, map[], map[], [])
  }

  /** Every skill key is stored lower-cased. Every write in the source
      lower-cases the key except the load of a save (line 95 of
      `PlayerSkills.java`), which keeps the saved spelling. */
  predicate Normalised(st: Ledger) {
    forall k :: k in st.skills ==> Lower(k) == k
  }

  predicate NoDuplicates<T(==)>(s: seq<T>) {
    forall i, j :: 0 <= i < j < |s| ==> s[i] != s[j]
  }

  /** `order` lists every key of `keys` exactly once: a map's iteration order. */
  predicate Enumerates<K(==)>(order: seq<K>, keys: set<K>) {
    && NoDuplicates(order)
    && (forall k :: k in keys ==> k in order)
    && (forall k :: k in order ==> k in keys)
  }

  predicate HasClass(st: Ledger) {
    st.tree.Some?
  }

  /** The registered class's name, if the stored class name is registered. */
  function ClassName(cat: Catalog, tree: Option<string>): Option<string> {
    match GetClass(cat, tree)
    case None => None
    case Some(c) => Some(c.name)
  }

  /** `hasSkill`: the lower-cased name is a key of the skill map. */
  predicate HasSkill(st: Ledger, name: string) {
    Lower(name) in st.skills
  }

  /** `hasSkill` does not depend on the case of the name asked about. */
  lemma HasSkillIgnoresCase(st: Ledger, a: string, b: string)
    requires EqualsIgnoreCase(a, b)
    ensures HasSkill(st, a) <==> HasSkill(st, b)
  {
  }

  /** `getSkillLevel`: throws when the skill is not held. */
  function GetSkillLevel(st: Ledger, name: string): (r: Result<int, Error>)
    ensures r.Success? <==> HasSkill(st, name)
    ensures r.Success? ==> r.value == st.skills[Lower(name)]
    ensures r.Failure? ==> r.error == NotHeld(name)
  {
    if HasSkill(st, name) then Success(st.skills[Lower(name)]) else Failure(NotHeld(name))
  }

  /** `getMaxMana`: 0 without a registered class, else the class's mana at the player's level. */
  function GetMaxMana(cat: Catalog, st: Ledger): (r: int)
    ensures GetClass(cat, st.tree).None? ==> r == 0
    ensures GetClass(cat, st.tree).Some? ==> r == GetClass(cat, st.tree).value.mana(st.level)
  {
    match GetClass(cat, st.tree)
    case None => 0
    case Some(c) => c.mana(st.level)
  }

  /** `getProfessionLevel`: 1 without a registered class, else the class's profession level. */
  function GetProfessionLevel(cat: Catalog, st: Ledger): (r: int)
    ensures GetClass(cat, st.tree).None? ==> r == 1
    ensures GetClass(cat, st.tree).Some? ==> r == GetClass(cat, st.tree).value.professLevel
  {
    match GetClass(cat, st.tree)
    case None => 1
    case Some(c) => c.professLevel
  }

  /** `canProfess(target)`; `permitted` is the host's permission answer for
      the target class. A root class (no parent) is open only to a player
      without a class, and a player with a class may only move on to a child
      of it, once at its profession level. */
  function CanProfess(cat: Catalog, st: Ledger, target: string, permitted: bool): (r: bool)
    ensures r ==> GetClass(cat, Some(target)).Some?
    ensures GetClass(cat, st.tree).None? && GetClass(cat, Some(target)).Some? ==>
              (r <==> GetClass(cat, Some(target)).value.parent.None?)
    ensures GetClass(cat, st.tree).Some? ==>
              (r <==> && GetClass(cat, Some(target)).Some?
                      && GetClass(cat, st.tree).value.professLevel >= 1
                      && permitted
                      && GetClass(cat, Some(target)).value.parent.Some?
                      && EqualsIgnoreCase(GetClass(cat, Some(target)).value.parent.value, st.tree.value)
                      && GetClass(cat, st.tree).value.professLevel <= st.level)
  {
    match GetClass(cat, Some(target))
    case None => false
    case Some(t) =>
      if GetClass(cat, st.tree).None? then t.parent.None?
      else if GetProfessionLevel(cat, st) < 1 then false
      else if !permitted then false
      else t.parent.Some? && EqualsIgnoreCase(t.parent.value, st.tree.value)
           && GetClass(cat, st.tree).value.professLevel <= st.level
  }

  /** `getBound`: the skill name bound to the item, or null. */
  function GetBound(st: Ledger, m: Material): (r: Option<string>)
    ensures r.Some? <==> m in st.binds
    ensures r.Some? ==> r.value == st.binds[m]
  {
    if m in st.binds then Some(st.binds[m]) else None
  }

  /** `bind`: binds the skill name to the item and returns the name it replaced. */
  function Bind(st: Ledger, m: Material, skill: string): (r: Step<Option<string>>)
    ensures r.out == GetBound(st, m)
    ensures GetBound(r.st, m) == Some(skill)
    ensures forall m' :: m' != m ==> GetBound(r.st, m') == GetBound(st, m')
    ensures r.st.(binds := st.binds) == st
  {
    Step(st.(binds := st.binds[m := skill]), GetBound(st, m), [])
  }

  /** `unbind`: removes the item's binding, if any. */
  function Unbind(st: Ledger, m: Material): (r: Ledger)
    ensures GetBound(r, m).None?
    ensures forall m' :: m' != m ==> GetBound(r, m') == GetBound(st, m')
    ensures r.(binds := st.binds) == st
  {
    st.(binds := st.binds - {m})
  }

  /** Binding a free item and unbinding it again restores the ledger; binding
      twice reports the first binding as the replaced one. */
  lemma BindUnbindRoundTrip(st: Ledger, m: Material, a: string, b: string)
    ensures GetBound(st, m).None? ==> Unbind(Bind(st, m, a).st, m) == st
    ensures Bind(Bind(st, m, a).st, m, b).out == Some(a)
    ensures Unbind(Unbind(st, m), m) == Unbind(st, m)
  {
    if GetBound(st, m).None? {
      assert Unbind(Bind(st, m, a).st, m).binds == st.binds;
    }
  }
}

=== FILE: loading.dfy ===
/** The reconciliation performed when a player's saved data is loaded (the
    configuration constructor): stored skills are matched against the class
    tree as it is now registered. Parsing the configuration is not modelled;
    the stored values arrive already read. */
module Loading {
  import opened Wrappers
  import opened Names
  import opened Catalogs
  import opened Ledgers
  import Classes

  /** The saved values: class name, level, experience, points, mana if saved,
      the skill map and the bindings. */
  datatype Stored = Stored(
    cls: Option<string>,
    level: int,
    exp: int,
    points: int,
    mana: Option<int>,
    skills: map<string, int>,
    binds: map<Material, string>)

  /** A stored skill is kept when it is registered and the tree grants it. */
  predicate Keeps(cat: Catalog, c: ClassDef, key: string) {
    LookupSkill(cat, key).Some? && Grants(c, LookupSkill(cat, key).value.name)
  }

  /** Load reconciliation. An unregistered stored class turns into no class
      (and the bindings are not read); with a registered class, stored skills
      the tree no longer grants are dropped without refund and tree skills
      missing from the save are added at level 0. */
  function Load(cat: Catalog, s: Stored): (r: Step<()>)
    ensures r.st.exp == (if s.cls.Some? && GetClass(cat, s.cls).None? then 0 else s.exp)
    ensures r.st.mana == s.mana.GetOr(0)
    ensures r.st.casting == []
    ensures s.cls.Some? && GetClass(cat, s.cls).None? ==>
              r.trace == [HealthUpdated, LevelBarUpdated, ClassChanged(None, None)]
    ensures s.cls.None? || GetClass(cat, s.cls).Some? ==> r.trace == [LevelBarUpdated]
    ensures s.cls.None? ==>
              && r.st.tree.None? && r.st.skills == map[] && r.st.binds == s.binds
              && r.st.level == s.level && r.st.points == s.points
    ensures s.cls.Some? && GetClass(cat, s.cls).None? ==>
              && r.st.tree.None? && r.st.skills == map[] && r.st.binds == map[]
              && r.st.level == 1 && r.st.points == cat.startingPoints
    ensures GetClass(cat, s.cls).Some? ==>
              var c := GetClass(cat, s.cls).value;
              && r.st.tree == s.cls && r.st.level == s.level && r.st.points == s.points
              && r.st.binds == s.binds
              && r.st.skills.Keys == (set k | k in s.skills && Keeps(cat, c, k)) + TreeKeys(c)
              && (forall k :: k in s.skills && Keeps(cat, c, k) ==> r.st.skills[k] == s.skills[k])
              && (forall k :: k in r.st.skills && !(k in s.skills && Keeps(cat, c, k)) ==> r.st.skills[k] == 0)
  {
    var base := Ledger(s.cls, s.level, s.exp, s.points, s.mana.GetOr(0), map[], map[], []);
    if s.cls.None? then Step(base.(binds := s.binds), (), [LevelBarUpdated])
    else match GetClass(cat, s.cls)
      case None => Classes.Leave(cat, base, None, [])
      case Some(c) =>
        var kept := map k | k in s.skills && Keeps(cat, c, k) :: s.skills[k];
        var skills := map k | k in kept.Keys + TreeKeys(c) :: if k in kept then kept[k] else 0;
        Step(base.(skills := skills, binds := s.binds), (), [LevelBarUpdated])
  }

  /** With a consistently keyed registry and a save whose keys are
      lower-cased, a loaded ledger holds exactly the tree's skills, under
      lower-cased keys, with every kept level intact. */
  lemma LoadMatchesTree(cat: Catalog, s: Stored)
    requires WellKeyed(cat)
    requires forall k :: k in s.skills ==> Lower(k) == k
    requires GetClass(cat, s.cls).Some?
    ensures var r := Load(cat, s).st;
            var c := GetClass(cat, s.cls).value;
            && r.skills.Keys == TreeKeys(c)
            && Normalised(r)
            && (forall k :: k in s.skills && k in TreeKeys(c) && k in cat.skills ==> r.skills[k] == s.skills[k])
  {
    var c := GetClass(cat, s.cls).value;
    var r := Load(cat, s).st;
    forall k | k in s.skills && Keeps(cat, c, k) ensures k in TreeKeys(c) {
      var name := LookupSkill(cat, k).value.name;
      assert Lower(name) == k;
      var t :| t in c.skills && EqualsIgnoreCase(t, name);
    }
    forall k | k in TreeKeys(c) ensures Lower(k) == k {
      var t :| t in c.skills && Lower(t) == k;
      LowerIdempotent(t);
    }
    forall k | k in s.skills && k in TreeKeys(c) && k in cat.skills ensures Keeps(cat, c, k) {
      assert LookupSkill(cat, k).value == cat.skills[k];
      TreeKeysGranted(c, k);
      var t :| t in c.skills && EqualsIgnoreCase(t, k);
      assert Lower(cat.skills[k].name) == k;
    }
  }
}

=== FILE: mana.dfy ===
/** The mana pool: `useMana` and `gainMana`, both cancellable by the event
    bus and both clamping the result into [0, getMaxMana()]. */
module ManaPool {
  import opened Wrappers
  import opened Catalogs
  import opened Ledgers

  /** Raise a negative value to 0, then lower it to `max` if above: the two
      `if`s after each mana update, in that order. */
  function Clamp(v: int, max: int): (r: int)
    ensures r <= max
    ensures 0 <= max ==> 0 <= r
    ensures 0 <= v <= max ==> r == v
    ensures v < 0 && 0 <= max ==> r == 0
    ensures v > max ==> r == max
  {
    var raised := if v < 0 then 0 else v;
    if raised > max then max else raised
  }

  /** `useMana(amount)`: posts the use event, then subtracts the amount the
      bus returned. Runs with or without a class; without a registered class
      the maximum is 0, so mana drops to 0. */
  function UseMana(cat: Catalog, st: Ledger, amount: int, reply: Reply): (r: Step<()>)
    ensures r.trace == [ManaUseRequested(amount)]
    ensures reply.Cancelled? ==> r.st == st
    ensures r.st.(mana := st.mana) == st
    ensures reply.Proceed? ==> r.st.mana <= GetMaxMana(cat, st)
    ensures reply.Proceed? && 0 <= GetMaxMana(cat, st) ==> 0 <= r.st.mana
    ensures reply.Proceed? && 0 <= st.mana - reply.amount <= GetMaxMana(cat, st) ==>
              r.st.mana == st.mana - reply.amount
    ensures reply.Proceed? && st.mana - reply.amount > GetMaxMana(cat, st) ==> r.st.mana == GetMaxMana(cat, st)
    ensures reply.Proceed? && st.mana - reply.amount < 0 ==>
              r.st.mana == (if 0 <= GetMaxMana(cat, st) then 0 else GetMaxMana(cat, st))
  {
    var t := [ManaUseRequested(amount)];
    match reply
    case Cancelled => Step(st, (), t)
    case Proceed(x) => Step(st.(mana := Clamp(st.mana - x, GetMaxMana(cat, st))), (), t)
  }

  /** `gainMana(amount)`: nothing at all without a class (no event either);
      otherwise posts the gain event and adds the amount the bus returned. */
  function GainMana(cat: Catalog, st: Ledger, amount: int, reply: Reply): (r: Step<()>)
    ensures !HasClass(st) ==> r.st == st && r.trace == []
    ensures HasClass(st) ==> r.trace == [ManaGainRequested(amount)]
    ensures reply.Cancelled? ==> r.st == st
    ensures r.st.(mana := st.mana) == st
    ensures HasClass(st) && reply.Proceed? ==> r.st.mana <= GetMaxMana(cat, st)
    ensures HasClass(st) && reply.Proceed? && 0 <= GetMaxMana(cat, st) ==> 0 <= r.st.mana
    ensures HasClass(st) && reply.Proceed? && 0 <= st.mana + reply.amount <= GetMaxMana(cat, st) ==>
              r.st.mana == st.mana + reply.amount
    ensures HasClass(st) && reply.Proceed? && st.mana + reply.amount > GetMaxMana(cat, st) ==>
              r.st.mana == GetMaxMana(cat, st)
    ensures HasClass(st) && reply.Proceed? && st.mana + reply.amount < 0 ==>
              r.st.mana == (if 0 <= GetMaxMana(cat, st) then 0 else GetMaxMana(cat, st))
  {
    if !HasClass(st) then Step(st, (), [])
    else
      var t := [ManaGainRequested(amount)];
      match reply
      case Cancelled => Step(st, (), t)
      case Proceed(x) => Step(st.(mana := Clamp(st.mana + x, GetMaxMana(cat, st))), (), t)
  }

  /** Using an amount that fits in the pool and gaining it back, both
      unmodified by the bus, restores the ledger exactly. */
  lemma UseThenGainRestores(cat: Catalog, st: Ledger, x: int)
    requires HasClass(st)
    requires 0 <= st.mana - x <= GetMaxMana(cat, st)
    requires 0 <= st.mana <= GetMaxMana(cat, st)
    ensures GainMana(cat, UseMana(cat, st, x, Proceed(x)).st, x, Proceed(x)).st == st
  {
    var mid := UseMana(cat, st, x, Proceed(x)).st;
    assert mid.mana == st.mana - x;
    assert GetMaxMana(cat, mid) == GetMaxMana(cat, st);
  }

  /** Whatever the bus answers, a player whose mana starts in range keeps it in range. */
  lemma ManaStaysInRange(cat: Catalog, st: Ledger, amount: int, reply: Reply)
    requires 0 <= st.mana <= GetMaxMana(cat, st)
    ensures 0 <= UseMana(cat, st, amount, reply).st.mana <= GetMaxMana(cat, st)
    ensures 0 <= GainMana(cat, st, amount, reply).st.mana <= GetMaxMana(cat, st)
  {
  }
}

=== FILE: names.dfy ===
/** Skill and class names are compared case-insensitively: map keys are
    written lower-cased and bindings are matched with `equalsIgnoreCase`.
    Case folding is modelled on ASCII letters only. */
module Names {

  function LowerChar(c: char): char {
    if 'A' <= c <= 'Z' then (c as int + 32) as char else c
  }

  /** `String.toLowerCase` restricted to ASCII. */
  function Lower(s: string): string {
    seq(|s|, i requires 0 <= i < |s| => LowerChar(s[i]))
  }

  /** `String.equalsIgnoreCase`. */
  predicate EqualsIgnoreCase(a: string, b: string) {
    Lower(a) == Lower(b)
  }

  /** Lower-casing a lower-cased name changes nothing, so a key written as
      `toLowerCase()` is found again by a lookup that lower-cases it. */
  lemma LowerIdempotent(s: string)
    ensures Lower(Lower(s)) == Lower(s)
  {
    assert forall i :: 0 <= i < |s| ==> LowerChar(LowerChar(s[i])) == LowerChar(s[i]);
  }
}

=== FILE: skill_points.dfy ===
/** Spending and refunding skill points: `upgradeSkill` and `downgradeSkill`. */
module SkillPoints {
  import opened Wrappers
  import opened Names
  import opened Catalogs
  import opened Ledgers

  /** The state the source leaves when an upgrade or downgrade is refused. */
  function Refused(st: Ledger): Step<bool> {
    Step(st, false, [])
  }

  /** The four guards of `upgradeSkill` before the prerequisite, as written:
      held, below max level, and level requirement and cost looked up at the
      CURRENT skill level. */
  predicate UpgradeGuards(st: Ledger, sk: SkillDef) {
    var k := Lower(sk.name);
    && k in st.skills
    && st.skills[k] < sk.maxLevel
    && st.level >= sk.levelReq(st.skills[k])
    && st.points >= sk.cost(st.skills[k])
  }

  /** The prerequisite, when the skill has one, is held at its required level. */
  predicate PrereqMet(st: Ledger, sk: SkillDef) {
    sk.prereq.None? || (HasSkill(st, sk.prereq.value) && st.skills[Lower(sk.prereq.value)] >= sk.prereqLevel)
  }

  /** The commit of a granted upgrade: passive hook (seeing the points before
      the deduction), deduct cost(level + 1), raise the level, then the
      unlock event on a first point and the upgrade event. */
  function Commit(st: Ledger, sk: SkillDef, lvl: int): Step<bool> {
    var k := Lower(sk.name);
    var hook := if sk.kind == Passive then [OnUpgrade(k, lvl + 1, st.points)] else [];
    var unlock := if lvl == 0 then [SkillUnlocked(k)] else [];
    Step(st.(points := st.points - sk.cost(lvl + 1), skills := st.skills[k := lvl + 1]),
         true, hook + unlock + [SkillUpgraded(k)])
  }

  /** `upgradeSkill(skill)` as written. Returns false and changes nothing on
      the first failed guard; throws when the prerequisite is not held at all
      (the source's `getSkillLevel` on a missing key). */
  function UpgradeSkill(st: Ledger, sk: SkillDef): (r: Result<Step<bool>, Error>)
    ensures r.Failure? <==> UpgradeGuards(st, sk) && sk.prereq.Some? && !HasSkill(st, sk.prereq.value)
    ensures r.Failure? ==> r.error == NotHeld(sk.prereq.value)
    ensures r.Success? && !r.value.out ==> r.value.st == st && r.value.trace == []
    ensures r.Success? ==> (r.value.out <==> UpgradeGuards(st, sk) && PrereqMet(st, sk))
    ensures r.Success? && r.value.out ==>
              var k := Lower(sk.name);
              var lvl := st.skills[k];
              && r.value.st.skills == st.skills[k := lvl + 1]
              && r.value.st.points == st.points - sk.cost(lvl + 1)
              && r.value.st.(points := st.points, skills := st.skills) == st
              && (sk.kind == Passive ==>
                    r.value.trace == [OnUpgrade(k, lvl + 1, st.points)]
                                     + (if lvl == 0 then [SkillUnlocked(k)] else []) + [SkillUpgraded(k)])
              && (sk.kind != Passive ==>
                    r.value.trace == (if lvl == 0 then [SkillUnlocked(k), SkillUpgraded(k)] else [SkillUpgraded(k)]))
  {
    var k := Lower(sk.name);
    if k !in st.skills then Success(Refused(st))
    else
      var lvl := st.skills[k];
      if lvl >= sk.maxLevel then Success(Refused(st))
      else if st.level < sk.levelReq(lvl) then Success(Refused(st))
      else if st.points < sk.cost(lvl) then Success(Refused(st))
      else if sk.prereq.Some? then
        match GetSkillLevel(st, sk.prereq.value)
        case Failure(e) => Failure(e)
        case Success(p) =>
          if p < sk.prereqLevel then Success(Refused(st)) else Success(Commit(st, sk, lvl))
      else Success(Commit(st, sk, lvl))
  }

  /** The guards `upgradeSkill` evidently intends: level requirement and cost
      of the level being bought, level + 1. */
  predicate IntendedGuards(st: Ledger, sk: SkillDef) {
    var k := Lower(sk.name);
    && k in st.skills
    && st.skills[k] < sk.maxLevel
    && st.level >= sk.levelReq(st.skills[k] + 1)
    && st.points >= sk.cost(st.skills[k] + 1)
  }

  /** `upgradeSkill` with the guards checked at the level being bought; the
      points a player holds can then never be overdrawn. */
  function UpgradeSkillIntended(st: Ledger, sk: SkillDef): (r: Result<Step<bool>, Error>)
    ensures r.Success? && !r.value.out ==> r.value.st == st
    ensures r.Success? ==> (r.value.out <==> IntendedGuards(st, sk) && PrereqMet(st, sk))
    ensures r.Success? && r.value.out ==>
              var lvl := st.skills[Lower(sk.name)];
              && r.value.st.skills == st.skills[Lower(sk.name) := lvl + 1]
              && r.value.st.points == st.points - sk.cost(lvl + 1)
              && r.value.st.level >= sk.levelReq(lvl + 1)
              && (st.points >= 0 ==> r.value.st.points >= 0)
  {
    var k := Lower(sk.name);
    if k !in st.skills then Success(Refused(st))
    else
      var lvl := st.skills[k];
      if lvl >= sk.maxLevel then Success(Refused(st))
      else if st.level < sk.levelReq(lvl + 1) then Success(Refused(st))
      else if st.points < sk.cost(lvl + 1) then Success(Refused(st))
      else if sk.prereq.Some? then
        match GetSkillLevel(st, sk.prereq.value)
        case Failure(e) => Failure(e)
        case Success(p) =>
          if p < sk.prereqLevel then Success(Refused(st)) else Success(Commit(st, sk, lvl))
      else Success(Commit(st, sk, lvl))
  }

  /** A skill costing its level: at level 0 the as-written guard compares
      against cost(0) = 0, so a player with no points buys level 1 and ends
      at -1 points; the intended guard refuses. */
  lemma UpgradeOverdraws()
    ensures var sk := SkillDef("slash", Shot, 5, l => l, l => 0, l => 0, None, 0);
            var st := Ledger(Some("warrior"), 1, 0, 0, 0, map["slash" := 0], map[], []);
            && UpgradeSkill(st, sk).Success?
            && UpgradeSkill(st, sk).value.out
            && UpgradeSkill(st, sk).value.st.points == -1
            && UpgradeSkillIntended(st, sk) == Success(Refused(st))
  {
    var sk := SkillDef("slash", Shot, 5, l => l, l => 0, l => 0, None, 0);
    var st := Ledger(Some("warrior"), 1, 0, 0, 0, map["slash" := 0], map[], []);
    assert Lower("slash") == "slash";
  }

  /** The item `m` is bound to a name equal to `name`, ignoring case. */
  predicate BoundTo(binds: map<Material, string>, m: Material, name: string) {
    m in binds && EqualsIgnoreCase(binds[m], name)
  }

  /** `r` is `binds` without the first item of `order` bound to `name`. */
  predicate FirstMatchRemoved(binds: map<Material, string>, order: seq<Material>, name: string, r: map<Material, string>) {
    exists i :: && 0 <= i < |order|
                && BoundTo(binds, order[i], name)
                && (forall j :: 0 <= j < i ==> !BoundTo(binds, order[j], name))
                && r == binds - {order[i]}
  }

  /** A first match in the tail of an order whose head does not match is
      the first match of the whole order. */
  lemma FirstMatchShift(binds: map<Material, string>, order: seq<Material>, name: string, r: map<Material, string>)
    requires |order| > 0 && !BoundTo(binds, order[0], name)
    requires FirstMatchRemoved(binds, order[1..], name, r)
    ensures FirstMatchRemoved(binds, order, name, r)
  {
    var tail := order[1..];
    var i :| && 0 <= i < |tail|
             && BoundTo(binds, tail[i], name)
             && (forall j :: 0 <= j < i ==> !BoundTo(binds, tail[j], name))
             && r == binds - {tail[i]};
    assert order[i + 1] == tail[i];
    forall j | 0 <= j < i + 1 ensures !BoundTo(binds, order[j], name) {
      if j > 0 {
        assert order[j] == tail[j - 1];
      }
    }
  }

  /** Remove the binding of the first item, in iteration order, bound to a
      name equal (ignoring case) to `name`: the loop with `break`. */
  function RemoveFirstBinding(binds: map<Material, string>, order: seq<Material>, name: string): (r: map<Material, string>)
    requires forall m :: BoundTo(binds, m, name) ==> m in order
    ensures (forall m :: m in binds ==> !EqualsIgnoreCase(binds[m], name)) ==> r == binds
    ensures (exists m :: BoundTo(binds, m, name)) ==> FirstMatchRemoved(binds, order, name, r)
  {
    if order == [] then binds
    else if BoundTo(binds, order[0], name) then
      assert FirstMatchRemoved(binds, order, name, binds - {order[0]}) by {
        assert BoundTo(binds, order[0], name);
      }
      binds - {order[0]}
    else
      var rest := RemoveFirstBinding(binds, order[1..], name);
      if exists m :: m in binds && BoundTo(binds, m, name) then
        FirstMatchShift(binds, order, name, rest);
        rest
      else rest
  }

  /** `downgradeSkill(skill)`: refused (false, nothing changed) when the skill
      is not held or has no points. Otherwise a passive's effects are
      stopped at the current level and restarted one lower, cost(level) is
      refunded, the level drops by one, and on reaching 0 the first binding
      to the skill (in `bindOrder`, the bindings' iteration order) is removed. */
  function DowngradeSkill(st: Ledger, sk: SkillDef, bindOrder: seq<Material>): (r: Step<bool>)
    requires Enumerates(bindOrder, st.binds.Keys)
    ensures !r.out <==> !HasSkill(st, sk.name) || st.skills[Lower(sk.name)] == 0
    ensures !r.out ==> r == Refused(st)
    ensures r.out ==>
              var k := Lower(sk.name);
              var lvl := st.skills[k];
              && r.st.skills == st.skills[k := lvl - 1]
              && r.st.points == st.points + sk.cost(lvl)
              && r.st.(points := st.points, skills := st.skills, binds := st.binds) == st
              && (lvl != 1 ==> r.st.binds == st.binds)
              && (lvl == 1 ==> r.st.binds == RemoveFirstBinding(st.binds, bindOrder, sk.name))
              && |r.trace| >= 1
              && r.trace[|r.trace| - 1] == SkillDowngraded(k)
              && (sk.kind == Passive ==> |r.trace| == 3 && r.trace[..2] == [StopEffects(k, lvl), OnInitialize(k, lvl - 1)])
              && (sk.kind != Passive ==> r.trace == [SkillDowngraded(k)])
  {
    var k := Lower(sk.name);
    if k !in st.skills then Refused(st)
    else
      var lvl := st.skills[k];
      if lvl == 0 then Refused(st)
      else
        var hooks := if sk.kind == Passive then [StopEffects(k, lvl), OnInitialize(k, lvl - 1)] else [];
        var binds := if lvl - 1 == 0 then RemoveFirstBinding(st.binds, bindOrder, sk.name) else st.binds;
        Step(st.(points := st.points + sk.cost(lvl), skills := st.skills[k := lvl - 1], binds := binds),
             true, hooks + [SkillDowngraded(k)])
  }

  /** No skill is held at a negative level (true of every ledger the
      operations build from a fresh one). */
  predicate NonNegativeLevels(st: Ledger) {
    forall k :: k in st.skills ==> st.skills[k] >= 0
  }

  /** Upgrading a skill and downgrading it again restores its level and the
      points exactly; the whole ledger comes back unless the upgrade bought
      the first point while an item was still bound to the skill. */
  lemma UpgradeDowngradeRoundTrip(st: Ledger, sk: SkillDef, bindOrder: seq<Material>)
    requires Enumerates(bindOrder, st.binds.Keys)
    requires NonNegativeLevels(st)
    requires UpgradeSkill(st, sk).Success? && UpgradeSkill(st, sk).value.out
    ensures var up := UpgradeSkill(st, sk).value.st;
            var down := DowngradeSkill(up, sk, bindOrder);
            && down.out
            && down.st.points == st.points
            && down.st.skills == st.skills
            && (st.skills[Lower(sk.name)] != 0 ==> down.st == st)
            && ((forall m :: m in st.binds ==> !EqualsIgnoreCase(st.binds[m], sk.name)) ==> down.st == st)
  {
    var k := Lower(sk.name);
    var lvl := st.skills[k];
    var up := UpgradeSkill(st, sk).value.st;
    assert up.skills[k] == lvl + 1;
    assert up.binds == st.binds;
    var down := DowngradeSkill(up, sk, bindOrder);
    assert down.st.skills == st.skills[k := lvl + 1][k := lvl];
    assert st.skills[k := lvl + 1][k := lvl] == st.skills;
  }

  /** Upgrading and downgrading keep every skill key lower-cased. */
  lemma PointsKeepNormalised(st: Ledger, sk: SkillDef, bindOrder: seq<Material>)
    requires Normalised(st)
    requires Enumerates(bindOrder, st.binds.Keys)
    ensures UpgradeSkill(st, sk).Success? ==> Normalised(UpgradeSkill(st, sk).value.st)
    ensures Normalised(DowngradeSkill(st, sk, bindOrder).st)
  {
    LowerIdempotent(sk.name);
  }
}

=== FILE: wrappers.dfy ===
/** A plain optional value (Java's nullable reference) and a plain result
    that is either a value or the exception the source would have thrown. */
module Wrappers {

  datatype Option<+T> = None | Some(value: T) {

    /** The value if present, otherwise `default` (an absent config entry
        leaves a Java field at its default value). */
    function GetOr(default: T): T {
      match this
      case Some(v) => v
      case None => default
    }
  }

  datatype Result<+R, +E> = Success(value: R) | Failure(error: E)
}
